=== FILE: README.md ===
# Car acquisition calculator — Dafny model

The calculator compares three ways of getting a car:

- paying cash;
- financing the price, less a down payment, with a fixed-rate amortized loan (Price/French system);
- renting for a comparison period.

It recommends the cheapest option and reports how much more each of the other two costs.

The model covers three parts of the system.

- **The comparison engine** (`Calculator`). It models cent rounding, the amortized payment, the three totals, the tie-breaking recommendation and the savings.
- **The server-side validator** (`Routes`). This is the `/calculate` handler with its HTTP plumbing removed. It runs six field checks in order, each of which may append an error with a fixed Portuguese message. It applies the `??` defaults. It either returns the error list or builds a fully populated engine input and prices it.
- **The browser-side form** (`Form`). `validateForm` maps each field to its error message. `handleSubmit` either stops on errors or submits a record with the defaults filled in. `Wire` sends that record through `JSON.stringify`, which turns NaN into `null`, and relates the two validators. This link assumes that the form's `onSubmit` callback passes the record unchanged to `calculateComparison` (frontend/src/services/api.service.ts); no file of the application wires the two together.

All arithmetic is over mathematical reals. The JavaScript primitives appear as explicit definitions in `Numeric`:

- `Math.round(x*100)/100` is `Round2`. It rounds halves upward, as `Math.round` does.
- `Math.pow(1 + r, -n)` is `1 / Pow(1 + r, n)`.
- `Number.isInteger` is `IsInteger`.

Values that only JavaScript has are modelled as explicit constructors:

- the server sees each body property as `Absent | Null | Num | NaN | Other`;
- the form sees each text box as `Empty | Parsed | Unparsable`;
- a submitted number is `Finite | NaN`.

The main results are these.

- The raw monthly payment pays the financed amount down to exactly zero after the last period (`AmortizationRepaysLoan`). The proof goes through a closed form of the balance recurrence.
- The recommendation is a minimum total. It is broken in the order cash, financing, rental. Its savings entry is zero and the other savings are the exact non-negative differences.
- The server reports a field if and only if that field's check fails. It reports fields in checking order, each at most once, with the field's own message. It accepts a body exactly when nothing is reported, and what it accepts satisfies the engine's input requirements.
- The form flags a field if and only if that field's check fails. Every record of finite numbers the form submits is accepted by the server, with the down payment and the comparison period defaulted as the form intended.

## Model

| member | source | states |
|---|---|---|
| Numeric.Round2 | backend/src/services/calculator.service.ts:9 | rounding to the cent gives a whole number of cents no more than half a cent away from the input (above by at most half a cent, below by less) |
| Numeric.Round2Unique | backend/src/services/calculator.service.ts:9 | the rounded value is the only whole-cent value in that half-open window, so halves go upward as with `Math.round` |
| Numeric.Round2OfCents | backend/src/services/calculator.service.ts:9 | a value that is already a whole number of cents is left unchanged |
| Numeric.Round2Idempotent | backend/src/services/calculator.service.ts:9 | rounding a rounded amount again changes nothing |
| Numeric.Round2Monotone | backend/src/services/calculator.service.ts:9 | rounding preserves the order of amounts |
| Numeric.PowAboveOne | backend/src/services/calculator.service.ts:26 | a base above one raised to a positive power stays above one |
| Calculator.DiscountInUnitInterval | backend/src/services/calculator.service.ts:21-26 | for a positive rate and term, the denominator `1 - (1+r)^-n` of the payment formula is strictly between 0 and 1, so the division is defined |
| Calculator.ValidInputIsPriceable | backend/src/services/calculator.service.ts:21-26 | every input the server accepts gives a defined payment formula |
| Calculator.RawPaymentPositive | backend/src/services/calculator.service.ts:21-26 | a positive financed amount at a positive rate has a positive payment |
| Calculator.AmortizationRepaysLoan | backend/src/services/calculator.service.ts:21-26 | charging interest and paying the raw payment each period leaves a balance of exactly zero after the last period |
| Calculator.CalculateCash | backend/src/services/calculator.service.ts:11-13 | the cash total is the car price to the cent |
| Calculator.CalculateFinancing | backend/src/services/calculator.service.ts:15-34 | the monthly payment is the amortized payment on price minus down payment, to the cent; the total is the down payment plus term times that rounded payment, to the cent |
| Calculator.CalculateRental | backend/src/services/calculator.service.ts:36-38 | the rental total is rent times the period, to the cent |
| Calculator.Min3 | backend/src/services/calculator.service.ts:45 | the minimum is one of the three totals and no greater than any of them |
| Calculator.PickRecommendation | backend/src/services/calculator.service.ts:40-53 | cash exactly when it is no dearer than both others; financing exactly when cheaper than cash and no dearer than rental; rental exactly when strictly cheapest; the chosen total is minimal |
| Calculator.AllEqualPicksCash | backend/src/services/calculator.service.ts:46-48 | a three-way tie recommends cash |
| Calculator.Calculate | backend/src/services/calculator.service.ts:55-87 | the three totals are priced from the input with a missing down payment read as 0 and a missing period as the term; the recommendation is the tie-broken pick among those totals, and it is no greater than any of them; each savings entry is that option's total minus the minimum, non-negative, and zero for the recommended option |
| Calculator.SavingsAreExact | backend/src/services/calculator.service.ts:74-78 | rounding the difference of two cent amounts gives that exact difference |
| Calculator.DefaultDownPayment | backend/src/services/calculator.service.ts:56 | a missing down payment prices financing as if the down payment were 0 |
| Calculator.DefaultComparisonPeriod | backend/src/services/calculator.service.ts:57 | a missing comparison period prices renting over the financing term |
| Calculator.CashTotalMonotone | backend/src/services/calculator.service.ts:11-13 | a dearer car never costs less in cash |
| Calculator.RawPaymentMonotone | backend/src/services/calculator.service.ts:21-26 | a larger financed amount never has a smaller raw payment |
| Calculator.PaidTotalMonotone | backend/src/services/calculator.service.ts:28 | a larger monthly payment never gives a smaller total paid, rounded to the cent |
| Calculator.FinancingTotalMonotone | backend/src/services/calculator.service.ts:15-34 | with the down payment, rate and term fixed, a dearer car never costs less financed |
| Routes.Push | backend/src/routes/calculator.routes.ts:24-31 | appending one check's outcome reports exactly the fields reported before plus the checked field if it failed, keeps checking order and attaches the field's message |
| Routes.ErrorsUpTo | backend/src/routes/calculator.routes.ts:24-80 | after the first k checks, the reported fields are exactly the failing ones among the first k, in checking order, each with its message |
| Routes.ValidationErrors | backend/src/routes/calculator.routes.ts:24-80 | a field is reported if and only if its check fails; errors come in checking order with each field's own message |
| Routes.ReportedOnce | backend/src/routes/calculator.routes.ts:24-80 | each field appears at most once, and exactly once when its check fails |
| Routes.RequiredAmountRule | backend/src/routes/calculator.routes.ts:7-45 | price, rent and rate each get one error when they are not a number (missing, null, NaN, non-numeric) or not positive, and none otherwise |
| Routes.FinancingTermRule | backend/src/routes/calculator.routes.ts:47-53 | the term is reported exactly when it is not a number, not a whole number or not positive |
| Routes.DownPaymentRule | backend/src/routes/calculator.routes.ts:21-67 | a missing down payment is never reported; `null` is read as 0, so it is reported only when the price is a number no greater than 0; NaN or a non-number is reported; a number is reported when negative, or when the price is a number no greater than it, even if the price itself was rejected |
| Routes.ComparisonPeriodRule | backend/src/routes/calculator.routes.ts:21-80 | a missing period is never reported; `null` falls back to the term and is reported exactly when the term is; any other value is checked as a whole positive number |
| Routes.Normalize | backend/src/routes/calculator.routes.ts:21-96 | an accepted body becomes a valid engine input carrying the body's numbers, with a defaulted down payment of 0 and a comparison period falling back to the term |
| Routes.Validate | backend/src/routes/calculator.routes.ts:12-96 | success exactly when no field is rejected; a failure carries the non-empty ordered error list; a success is the normalized body, a valid engine input |
| Routes.Handle | backend/src/routes/calculator.routes.ts:82-99 | the request is priced exactly when nothing is rejected, an error list otherwise; the price is the engine's result on the normalized body, with non-negative savings |
| Routes.NegativePriceRefused | backend/src/routes/calculator.routes.ts:26-31 | any negative car price makes the request fail with a carPrice error |
| Routes.FullDownPaymentRefused | backend/src/routes/calculator.routes.ts:61-66 | a down payment equal to the price is reported |
| Routes.DownPaymentComparedWithRejectedPrice | backend/src/routes/calculator.routes.ts:55-67 | a price that is not positive, with a non-negative down payment and the other fields valid, gives exactly two errors: the price, then the down payment |
| Form.ValidateForm | frontend/src/components/CalculatorForm.tsx:50-82 | a field has an error message if and only if its check fails, and the message is that field's own |
| Form.RequiredAmountFormRule | frontend/src/components/CalculatorForm.tsx:36-63 | price, rent and rate are flagged exactly when blank, unparsable or not positive |
| Form.FinancingTermFormRule | frontend/src/components/CalculatorForm.tsx:42-67 | the term is flagged exactly when blank, unparsable, not whole or not positive |
| Form.ZeroAndFractionalTermsRefused | frontend/src/components/CalculatorForm.tsx:42-48 | a term of 0 or of 1.5 is flagged |
| Form.DownPaymentFormRule | frontend/src/components/CalculatorForm.tsx:69-75 | a blank or unparsable down payment is not flagged; a number is flagged exactly when negative, or when the price parses to a positive value no greater than it |
| Form.ComparisonPeriodFormRule | frontend/src/components/CalculatorForm.tsx:77-79 | a blank period is not flagged; any other text is flagged exactly when it is not a whole positive number |
| Form.FieldLocality | frontend/src/components/CalculatorForm.tsx:50-82 | the verdict on a field depends only on that field's own text, plus the car price for the down payment |
| Form.HandleSubmit | frontend/src/components/CalculatorForm.tsx:96-121 | a record is submitted exactly when no field is flagged; each entry is `Number(text)` of its box, with 0 for a blank down payment and the term for a blank period; it then has positive amounts, a whole positive term and period, and a numeric down payment below the price |
| Form.UnparsableDownPaymentSubmitted | frontend/src/components/CalculatorForm.tsx:69-75 | down-payment text that is not a number passes the form and is submitted as NaN |
| Wire.Encode | frontend/src/services/api.service.ts:45 | each finite entry is sent as that number and NaN as null; no property is missing or of another type |
| Wire.SubmittedFormAccepted | frontend/src/services/api.service.ts:45 | the server accepts every record of finite numbers (and a NaN down payment) that the form submits, keeps every entry, and prices a NaN down payment as 0 |

## Left out

- The HTTP layer of the handler is not modelled: Express routing, JSON body parsing, the 400 and 200 responses, and the 500 returned by the `try/catch` (backend/src/routes/calculator.routes.ts:10, 83-87, 99-102). The model returns the error list or the result instead.
- The fetch client and its error envelope (frontend/src/services/api.service.ts) are not modelled, apart from the `JSON.stringify` of the request.
- React state, rendering and currency formatting (App.tsx, ResultDisplay.tsx, the JSX of CalculatorForm.tsx) are not modelled, because they compute nothing the engine or the validators depend on.
- IEEE-754 doubles are not modelled. Amounts are exact reals, so where binary rounding changes a cent the model and the code can differ, and no concrete figures are stated. Binary rounding also reaches the division by zero: any accepted rate below about 1.1e-14 % makes `1 + monthlyRate` round to exactly 1 (backend/src/services/calculator.service.ts:22-26). The denominator is then 0, the payment, financing total and `vsFinancing` are Infinity, and the 200 response carries them as `null`. The model does not show this.
- Infinity is not modelled. The server's JSON parser turns a literal such as `1e400` into Infinity, and `isNumber` accepts it (backend/src/routes/calculator.routes.ts:7-8), so `{"carPrice": 1e400}` passes the check at line 26 and is priced as Infinity. In the form, "Infinity" in the price, rent or rate box reads as Infinity, passes the form's checks and is sent as `null` by `JSON.stringify`. In the term or period box it is flagged, because `Number.isInteger(Infinity)` is false. In the down payment box it is flagged against any positive price. Neither the server case nor the form case is modelled.
- `Number(text)` is abstracted to blank, numeric or unparsable text. The concrete syntaxes it accepts, such as hexadecimal and exponents, are not modelled.
- Calculator.CalculateFinancing: requires that `(1+r)^n` is neither 0 nor 1, so it says nothing about those inputs. When it is 1 (a zero rate, a term of 0, or a rate of -200 % with an even term) the code divides by zero and yields NaN or ±Infinity. When it is 0 (a rate of -100 %), `Math.pow(0, -n)` is Infinity, the denominator is -Infinity, and the payment is a finite 0. Over reals, no validated input reaches these values, because rate > 0 and term >= 1. In doubles a tiny positive rate does reach the zero denominator (see the IEEE-754 line above).
- Calculator.Calculate: carries the same precondition as CalculateFinancing, and takes whole-number term and period. The engine's TypeScript signature accepts any number, but its one caller (backend/src/routes/calculator.routes.ts:98) only passes validated positive integers.
- Wire.SubmittedFormAccepted: covers only records whose entries are finite numbers or a NaN down payment. A price box holding "Infinity", with the other boxes valid, passes `validateForm` (frontend/src/components/CalculatorForm.tsx:40) and is submitted as `carPrice: Infinity`. `JSON.stringify` sends it as `null`, and the server reports a carPrice error (backend/src/routes/calculator.routes.ts:26). So for such input the form accepts what the server refuses.

## Notes on the code

- The payment formula at backend/src/services/calculator.service.ts:24-26 divides with no special case for a zero rate. The model has no such branch either. A zero rate never passes validation, but in doubles a positive rate below about 1.1e-14 % still reaches the zero denominator (see "## Left out").
- `Math.round` rounds halves upward, so round2(-0.005) is -0, not -0.01. `Numeric.Round2` does the same. On the non-negative amounts that validated input produces, this is also rounding half away from zero.
- backend/src/routes/calculator.routes.ts:61 compares the down payment with any numeric price, even one already rejected at line 26. See `Routes.DownPaymentComparedWithRejectedPrice`.

=== FILE: calculator.dfy ===
/** The comparison engine: the cost of paying cash, of an amortized loan and
    of renting, the cheapest of the three, and how much more the other two
    cost. Every amount is rounded to the cent when it is finalized. */
module Calculator {
  import opened CalculatorTypes
  import opened Numeric

  /** Interest per period as a fraction; the input is a percentage. */
  function MonthlyRate(interestRate: real): real
  {
    interestRate / 100.0
  }

  /** (1 + rate)^n: what one unit of debt grows to over `n` periods. */
  function Growth(interestRate: real, n: nat): real
  {
    Pow(1.0 + MonthlyRate(interestRate), n)
  }

  /** The payment formula has a value: (1 + rate)^(-n) exists and
      1 - (1 + rate)^(-n) is not zero. Outside this set the JavaScript
      expression is NaN or infinite. */
  predicate AmortizationDefined(interestRate: real, financingTerm: nat)
  {
    Growth(interestRate, financingTerm) != 0.0 && Growth(interestRate, financingTerm) != 1.0
  }

  /** 1 - (1 + rate)^(-n), the denominator of the payment formula. */
  function Discount(interestRate: real, financingTerm: nat): real
    requires Growth(interestRate, financingTerm) != 0.0
  {
    1.0 - 1.0 / Growth(interestRate, financingTerm)
  }

  /** With a positive rate and at least one period the denominator lies
      strictly between 0 and 1, so the payment formula always has a value. */
  lemma DiscountInUnitInterval(interestRate: real, financingTerm: nat)
    requires interestRate > 0.0
    requires financingTerm >= 1
    ensures AmortizationDefined(interestRate, financingTerm)
    ensures 0.0 < Discount(interestRate, financingTerm) < 1.0
  {
    PowAboveOne(1.0 + MonthlyRate(interestRate), financingTerm);
  }

  /** The constraints the validators put on a request: positive amounts, a
      positive whole term and period, and a down payment below the price. */
  predicate ValidInput(input: CalculationInput)
  {
    && input.carPrice > 0.0
    && input.monthlyRent > 0.0
    && input.interestRate > 0.0
    && input.financingTerm >= 1
    && (input.downPayment.Some? ==> 0.0 <= input.downPayment.value < input.carPrice)
    && (input.comparisonPeriod.Some? ==> input.comparisonPeriod.value >= 1)
  }

  /** Every validated request can be priced. */
  lemma ValidInputIsPriceable(input: CalculationInput)
    requires ValidInput(input)
    ensures AmortizationDefined(input.interestRate, input.financingTerm)
    ensures 0.0 < Discount(input.interestRate, input.financingTerm) < 1.0
  {
    DiscountInUnitInterval(input.interestRate, input.financingTerm);
  }

  /** The unrounded amortized payment for a loan of `financed`. */
  function RawPayment(financed: real, interestRate: real, financingTerm: nat): real
    requires AmortizationDefined(interestRate, financingTerm)
  {
    financed * MonthlyRate(interestRate) / Discount(interestRate, financingTerm)
  }

  /** A positive loan at a positive rate has a positive payment. */
  lemma RawPaymentPositive(financed: real, interestRate: real, financingTerm: nat)
    requires interestRate > 0.0
    requires financingTerm >= 1
    requires financed > 0.0
    ensures AmortizationDefined(interestRate, financingTerm)
    ensures RawPayment(financed, interestRate, financingTerm) > 0.0
  {
    DiscountInUnitInterval(interestRate, financingTerm);
    assert financed * MonthlyRate(interestRate) > 0.0;
  }

  /** What is still owed after `k` periods on a loan of `principal` when each
      period first accrues interest at `rate` and then `payment` is paid: the
      textbook meaning of an amortizing payment, independent of the closed
      formula the engine uses. */
  function Balance(principal: real, rate: real, payment: real, k: nat): real
  {
    if k == 0 then principal else Balance(principal, rate, payment, k - 1) * (1.0 + rate) - payment
  }

  /** Closed form of the balance, multiplied through by the rate so that no
      division is needed. */
  lemma {:induction false} BalanceClosedForm(principal: real, rate: real, payment: real, k: nat)
    ensures rate * Balance(principal, rate, payment, k)
         == rate * principal * Pow(1.0 + rate, k) - payment * (Pow(1.0 + rate, k) - 1.0)
  {
    if k > 0 {
      BalanceClosedForm(principal, rate, payment, k - 1);
      BalanceStep(principal, rate, payment,
                  Pow(1.0 + rate, k - 1), Balance(principal, rate, payment, k - 1),
                  Pow(1.0 + rate, k), Balance(principal, rate, payment, k));
    }
  }

  /** One period of `BalanceClosedForm`'s induction, as plain algebra: from
      the closed form for balance `b` and growth `prev`, the closed form for
      the next balance `next` and growth `grown`. */
  lemma BalanceStep(principal: real, rate: real, payment: real, prev: real, b: real, grown: real, next: real)
    requires rate * b == rate * principal * prev - payment * (prev - 1.0)
    requires grown == (1.0 + rate) * prev
    requires next == b * (1.0 + rate) - payment
    ensures rate * next == rate * principal * grown - payment * (grown - 1.0)
  {
    var q := 1.0 + rate;
    calc {
      rate * (b * q - payment);
      (rate * b) * q - rate * payment;
      (rate * principal * prev - payment * (prev - 1.0)) * q - rate * payment;
      rate * principal * (q * prev) - payment * (q * prev - 1.0);
    }
  }

  /** The payment the engine computes, before rounding, pays the loan off
      exactly at the end of the term. */
  lemma AmortizationRepaysLoan(financed: real, interestRate: real, financingTerm: nat)
    requires AmortizationDefined(interestRate, financingTerm)
    ensures Balance(financed, MonthlyRate(interestRate),
                    RawPayment(financed, interestRate, financingTerm), financingTerm) == 0.0
  {
    var rate := MonthlyRate(interestRate);
    var pay := RawPayment(financed, interestRate, financingTerm);
    var q := Growth(interestRate, financingTerm);
    var d := Discount(interestRate, financingTerm);
    BalanceClosedForm(financed, rate, pay, financingTerm);
    assert rate != 0.0 by {
      if rate == 0.0 {
        PowOfOne(financingTerm);
      }
    }
    assert d * q == q - 1.0;
    assert pay * d == financed * rate;
    assert pay * (q - 1.0) == financed * rate * q by {
      calc {
        pay * (q - 1.0);
        pay * (d * q);
        (pay * d) * q;
        financed * rate * q;
      }
    }
    assert rate * Balance(financed, rate, pay, financingTerm) == 0.0;
  }

  /** One to any power is one. */
  lemma {:induction false} PowOfOne(n: nat)
    ensures Pow(1.0, n) == 1.0
  {
    if n > 0 {
      PowOfOne(n - 1);
    }
  }

  /** Paying cash costs the price, to the cent. */
  function CalculateCash(carPrice: real): (r: CashResult)
    ensures IsCents(r.total)
    ensures carPrice - 0.005 < r.total <= carPrice + 0.005
  {
    CashResult(Round2(carPrice))
  }

  /** Financing: the payment is the amortized payment rounded to the cent, and
      the total is the down payment plus that ROUNDED payment over the whole
      term, rounded again. */
  function CalculateFinancing(carPrice: real, downPayment: real, interestRate: real, financingTerm: nat)
    : (r: FinancingResult)
    requires AmortizationDefined(interestRate, financingTerm)
    ensures IsCents(r.monthlyPayment) && IsCents(r.total)
    ensures var raw := RawPayment(carPrice - downPayment, interestRate, financingTerm);
            raw - 0.005 < r.monthlyPayment <= raw + 0.005
    ensures var owed := downPayment + r.monthlyPayment * financingTerm as real;
            owed - 0.005 < r.total <= owed + 0.005
  {
    var financedAmount := carPrice - downPayment;
    var monthlyPayment := Round2(RawPayment(financedAmount, interestRate, financingTerm));
    FinancingResult(monthlyPayment, AmountPaid(downPayment, monthlyPayment, financingTerm))
  }

  /** The down payment plus every installment, rounded to the cent. */
  function AmountPaid(downPayment: real, monthlyPayment: real, financingTerm: nat): real
  {
    Round2(downPayment + Installments(monthlyPayment, financingTerm))
  }

  /** The sum of `financingTerm` equal installments. */
  function Installments(monthlyPayment: real, financingTerm: nat): real
  {
    monthlyPayment * financingTerm as real
  }

  /** Renting costs the rent over the comparison period, to the cent. */
  function CalculateRental(monthlyRent: real, comparisonPeriod: nat): (r: RentalResult)
    ensures IsCents(r.total)
    ensures var owed := monthlyRent * comparisonPeriod as real;
            owed - 0.005 < r.total <= owed + 0.005
  {
    RentalResult(Round2(monthlyRent * comparisonPeriod as real))
  }

  /** `Math.min` of three numbers: one of them, and no larger than any. */
  function Min3(a: real, b: real, c: real): (m: real)
    ensures m <= a && m <= b && m <= c
    ensures m == a || m == b || m == c
  {
    var ab := if a <= b then a else b;
    if ab <= c then ab else c
  }

  /** The total of the option `rec`. */
  function TotalOf(rec: Recommendation, cashTotal: real, financingTotal: real, rentalTotal: real): real
  {
    match rec
    case Cash => cashTotal
    case Financing => financingTotal
    case Rental => rentalTotal
  }

  /** The cheapest option; on equal totals cash beats financing and
      financing beats rental. */
  function PickRecommendation(cashTotal: real, financingTotal: real, rentalTotal: real)
    : (rec: Recommendation)
    ensures rec == Cash <==> cashTotal <= financingTotal && cashTotal <= rentalTotal
    ensures rec == Financing <==> financingTotal < cashTotal && financingTotal <= rentalTotal
    ensures rec == Rental <==> rentalTotal < cashTotal && rentalTotal < financingTotal
    ensures var t := TotalOf(rec, cashTotal, financingTotal, rentalTotal);
            t <= cashTotal && t <= financingTotal && t <= rentalTotal
  {
    var minTotal := Min3(cashTotal, financingTotal, rentalTotal);
    if cashTotal == minTotal then Cash
    else if financingTotal == minTotal then Financing
    else Rental
  }

  /** With all three totals equal, cash is recommended. */
  lemma AllEqualPicksCash(t: real)
    ensures PickRecommendation(t, t, t) == Cash
  {
  }

  /** How much more financing and renting cost than the cheapest option,
      rounded to the cent. */
  function ComputeSavings(financingTotal: real, rentalTotal: real, minTotal: real): Savings
  {
    Savings(Round2(financingTotal - minTotal), Round2(rentalTotal - minTotal))
  }

  /** `input.downPayment ?? 0`. */
  function DownPaymentOf(input: CalculationInput): real
  {
    match input.downPayment
    case Some(d) => d
    case None => 0.0
  }

  /** `input.comparisonPeriod ?? input.financingTerm`. */
  function ComparisonPeriodOf(input: CalculationInput): nat
  {
    match input.comparisonPeriod
    case Some(p) => p
    case None => input.financingTerm
  }

  /** The whole comparison. A missing down payment counts as 0 and a missing
      comparison period as the financing term. */
  function Calculate(input: CalculationInput): (res: CalculationResult)
    requires AmortizationDefined(input.interestRate, input.financingTerm)
    ensures res.cash == CalculateCash(input.carPrice)
    ensures res.financing
         == CalculateFinancing(input.carPrice, DownPaymentOf(input), input.interestRate, input.financingTerm)
    ensures res.rental == CalculateRental(input.monthlyRent, ComparisonPeriodOf(input))
    ensures res.recommendation == PickRecommendation(res.cash.total, res.financing.total, res.rental.total)
    ensures var t := TotalOf(res.recommendation, res.cash.total, res.financing.total, res.rental.total);
            && t <= res.cash.total && t <= res.financing.total && t <= res.rental.total
            && res.savings.vsFinancing == res.financing.total - t
            && res.savings.vsRental == res.rental.total - t
    ensures res.savings.vsFinancing >= 0.0 && res.savings.vsRental >= 0.0
    ensures res.recommendation == Financing ==> res.savings.vsFinancing == 0.0
    ensures res.recommendation == Rental ==> res.savings.vsRental == 0.0
  {
    var downPayment := DownPaymentOf(input);
    var comparisonPeriod := ComparisonPeriodOf(input);
    var cash := CalculateCash(input.carPrice);
    var financing := CalculateFinancing(input.carPrice, downPayment, input.interestRate, input.financingTerm);
    var rental := CalculateRental(input.monthlyRent, comparisonPeriod);
    var recommendation := PickRecommendation(cash.total, financing.total, rental.total);
    var minTotal := Min3(cash.total, financing.total, rental.total);
    SavingsAreExact(financing.total, minTotal);
    SavingsAreExact(rental.total, minTotal);
    CalculationResult(cash, financing, rental, recommendation,
                      ComputeSavings(financing.total, rental.total, minTotal))
  }

  /** Rounding the gap between two cent amounts changes nothing. */
  lemma SavingsAreExact(total: real, minTotal: real)
    requires IsCents(total) && IsCents(minTotal)
    ensures Round2(total - minTotal) == total - minTotal
  {
    CentsSub(total, minTotal);
    Round2OfCents(total - minTotal);
  }

  /** Omitting the down payment is the same as passing 0. */
  lemma DefaultDownPayment(input: CalculationInput)
    requires AmortizationDefined(input.interestRate, input.financingTerm)
    requires input.downPayment == None
    ensures Calculate(input) == Calculate(input.(downPayment := Some(0.0)))
  {
  }

  /** Omitting the comparison period is the same as passing the financing term. */
  lemma DefaultComparisonPeriod(input: CalculationInput)
    requires AmortizationDefined(input.interestRate, input.financingTerm)
    requires input.comparisonPeriod == None
    ensures Calculate(input) == Calculate(input.(comparisonPeriod := Some(input.financingTerm)))
  {
  }

  /** A dearer car never makes paying cash cheaper. */
  lemma CashTotalMonotone(price1: real, price2: real)
    requires price1 <= price2
    ensures CalculateCash(price1).total <= CalculateCash(price2).total
  {
    Round2Monotone(price1, price2);
  }

  /** A larger loan at a positive rate has a larger payment. */
  lemma RawPaymentMonotone(financed1: real, financed2: real, interestRate: real, financingTerm: nat)
    requires financed1 <= financed2
    requires interestRate > 0.0
    requires financingTerm >= 1
    ensures AmortizationDefined(interestRate, financingTerm)
    ensures RawPayment(financed1, interestRate, financingTerm) <= RawPayment(financed2, interestRate, financingTerm)
  {
    DiscountInUnitInterval(interestRate, financingTerm);
    QuotientMonotone(financed1, financed2, MonthlyRate(interestRate), Discount(interestRate, financingTerm));
  }

  /** A dearer car never makes financing it cheaper, at a positive rate. */
  lemma FinancingTotalMonotone(price1: real, price2: real, downPayment: real, interestRate: real, financingTerm: nat)
    requires price1 <= price2
    requires interestRate > 0.0
    requires financingTerm >= 1
    ensures AmortizationDefined(interestRate, financingTerm)
    ensures CalculateFinancing(price1, downPayment, interestRate, financingTerm).total
         <= CalculateFinancing(price2, downPayment, interestRate, financingTerm).total
  {
    RawPaymentMonotone(price1 - downPayment, price2 - downPayment, interestRate, financingTerm);
    var raw1 := RawPayment(price1 - downPayment, interestRate, financingTerm);
    var raw2 := RawPayment(price2 - downPayment, interestRate, financingTerm);
    Round2Monotone(raw1, raw2);
    PaidTotalMonotone(Round2(raw1), Round2(raw2), downPayment, financingTerm);
  }

  /** The amount paid grows with the monthly payment. */
  lemma PaidTotalMonotone(payment1: real, payment2: real, downPayment: real, financingTerm: nat)
    requires payment1 <= payment2
    ensures AmountPaid(downPayment, payment1, financingTerm) <= AmountPaid(downPayment, payment2, financingTerm)
  {
    ProductMonotone(payment1, payment2, financingTerm as real);
    ShiftedRound2Monotone(downPayment, Installments(payment1, financingTerm), Installments(payment2, financingTerm));
  }

  /** Adding the same amount before rounding keeps the order. */
  lemma ShiftedRound2Monotone(base: real, x: real, y: real)
    requires x <= y
    ensures Round2(base + x) <= Round2(base + y)
  {
    Round2Monotone(base + x, base + y);
  }

  lemma QuotientMonotone(a: real, b: real, rate: real, d: real)
    requires a <= b && rate > 0.0 && d > 0.0
    ensures a * rate / d <= b * rate / d
  {
    ProductMonotone(a, b, rate);
    assert a * rate / d == (a * rate) * (1.0 / d);
    assert b * rate / d == (b * rate) * (1.0 / d);
    ProductMonotone(a * rate, b * rate, 1.0 / d);
  }

  lemma ProductMonotone(a: real, b: real, k: real)
    requires a <= b && k >= 0.0
    ensures a * k <= b * k
  {
    assert b * k - a * k == (b - a) * k;
  }
}

=== FILE: form.dfy ===
/** The browser-side checks of the calculator form and the record it submits.
    Every input is a text box; each field's error is decided from the text
    alone, except the down payment, which also reads the car price. */
module Form {
  import opened CalculatorTypes
  import opened Numeric

  /** A text box as `Number(text)` reads it: blank (empty or only whitespace),
      the text of a number, or text that is not a number. */
  datatype FieldText = Empty | Parsed(value: real) | Unparsable

  /** A JavaScript number produced by `Number(text)`: finite, or NaN. */
  datatype JsNumber = Finite(x: real) | NaN

  datatype FormState = FormState(
    carPrice: FieldText,
    monthlyRent: FieldText,
    interestRate: FieldText,
    financingTerm: FieldText,
    downPayment: FieldText,
    comparisonPeriod: FieldText)

  /** The record handed to the submit callback; every entry is `Number(text)`
      or a default. */
  datatype SubmittedInput = SubmittedInput(
    carPrice: JsNumber,
    monthlyRent: JsNumber,
    interestRate: JsNumber,
    financingTerm: JsNumber,
    downPayment: JsNumber,
    comparisonPeriod: JsNumber)

  /** The submitted entry of field `f`. */
  function Submitted(sub: SubmittedInput, f: Field): JsNumber
  {
    match f
    case CarPrice => sub.carPrice
    case MonthlyRent => sub.monthlyRent
    case InterestRate => sub.interestRate
    case FinancingTerm => sub.financingTerm
    case DownPayment => sub.downPayment
    case ComparisonPeriod => sub.comparisonPeriod
  }

  /** The text box of field `f`. */
  function Entry(state: FormState, f: Field): FieldText
  {
    match f
    case CarPrice => state.carPrice
    case MonthlyRent => state.monthlyRent
    case InterestRate => state.interestRate
    case FinancingTerm => state.financingTerm
    case DownPayment => state.downPayment
    case ComparisonPeriod => state.comparisonPeriod
  }

  /** `Number(text)`; a blank text reads as 0. */
  function ParseNumber(t: FieldText): JsNumber
  {
    match t
    case Empty => Finite(0.0)
    case Parsed(v) => Finite(v)
    case Unparsable => NaN
  }

  /** `text.trim() !== ""` */
  predicate HasValue(t: FieldText)
  {
    !t.Empty?
  }

  /** `a > b`; false whenever `a` is NaN. */
  predicate Above(a: JsNumber, b: real)
  {
    a.Finite? && a.x > b
  }

  /** `a < b`; false whenever `a` is NaN. */
  predicate Under(a: JsNumber, b: real)
  {
    a.Finite? && a.x < b
  }

  /** `a >= b`; false whenever either side is NaN. */
  predicate AtLeast(a: JsNumber, b: JsNumber)
  {
    a.Finite? && b.Finite? && a.x >= b.x
  }

  /** `isPositive` */
  predicate IsPositive(t: FieldText)
  {
    HasValue(t) && Above(ParseNumber(t), 0.0)
  }

  /** `isPositiveInteger` */
  predicate IsPositiveInteger(t: FieldText)
  {
    if !HasValue(t) then false
    else
      var v := ParseNumber(t);
      v.Finite? && IsInteger(v.x) && v.x > 0.0
  }

  /** The down payment check: only a non-blank entry is checked; it fails
      when negative, or when the car price reads as a positive number and the
      down payment reaches it. */
  predicate DownPaymentInvalid(state: FormState)
  {
    && HasValue(state.downPayment)
    && var downPaymentValue := ParseNumber(state.downPayment);
       var carPriceValue := ParseNumber(state.carPrice);
       Under(downPaymentValue, 0.0) || (Above(carPriceValue, 0.0) && AtLeast(downPaymentValue, carPriceValue))
  }

  /** Whether the form shows an error for field `f`. */
  predicate FormRejected(state: FormState, f: Field)
  {
    match f
    case CarPrice => !IsPositive(state.carPrice)
    case MonthlyRent => !IsPositive(state.monthlyRent)
    case InterestRate => !IsPositive(state.interestRate)
    case FinancingTerm => !IsPositiveInteger(state.financingTerm)
    case DownPayment => DownPaymentInvalid(state)
    case ComparisonPeriod => HasValue(state.comparisonPeriod) && !IsPositiveInteger(state.comparisonPeriod)
  }

  /** The message the form shows under each field. */
  function FormMessage(f: Field): string
  {
    match f
    case CarPrice => "Informe um valor maior que zero"
    case MonthlyRent => "Informe um valor maior que zero"
    case InterestRate => "Informe uma taxa maior que zero"
    case FinancingTerm => "Informe um prazo valido em meses"
    case DownPayment => "A entrada deve ser menor que o valor do carro"
    case ComparisonPeriod => "Informe um periodo valido em meses"
  }

  /** Every entry of `errors` holds its field's message. */
  predicate Worded(errors: map<Field, string>)
  {
    forall f :: f in errors ==> errors[f] == FormMessage(f)
  }

  /** `errors.<field> = message` when the check failed. */
  function Flag(errors: map<Field, string>, failed: bool, f: Field): (r: map<Field, string>)
    requires Worded(errors)
    ensures Worded(r)
    ensures forall g :: g in r <==> g in errors || (failed && g == f)
  {
    if failed then errors[f := FormMessage(f)] else errors
  }

  /** `validateForm`: one entry per field whose check fails, holding that
      field's message. */
  function ValidateForm(state: FormState): (errors: map<Field, string>)
    ensures forall f :: f in errors <==> FormRejected(state, f)
    ensures Worded(errors)
  {
    var e1 := Flag(map[], !IsPositive(state.carPrice), CarPrice);
    var e2 := Flag(e1, !IsPositive(state.monthlyRent), MonthlyRent);
    var e3 := Flag(e2, !IsPositive(state.interestRate), InterestRate);
    var e4 := Flag(e3, !IsPositiveInteger(state.financingTerm), FinancingTerm);
    var e5 := Flag(e4, DownPaymentInvalid(state), DownPayment);
    var e6 := Flag(e5, HasValue(state.comparisonPeriod) && !IsPositiveInteger(state.comparisonPeriod), ComparisonPeriod);
    ChecksFlagged(state, e1, e2, e3, e4, e5, e6);
    e6
  }

  /** After the six checks exactly the failing fields carry an error. */
  lemma ChecksFlagged(state: FormState, e1: map<Field, string>, e2: map<Field, string>,
                      e3: map<Field, string>, e4: map<Field, string>, e5: map<Field, string>,
                      e6: map<Field, string>)
    requires forall g :: g in e1 <==> !IsPositive(state.carPrice) && g == CarPrice
    requires forall g :: g in e2 <==> g in e1 || (!IsPositive(state.monthlyRent) && g == MonthlyRent)
    requires forall g :: g in e3 <==> g in e2 || (!IsPositive(state.interestRate) && g == InterestRate)
    requires forall g :: g in e4 <==> g in e3 || (!IsPositiveInteger(state.financingTerm) && g == FinancingTerm)
    requires forall g :: g in e5 <==> g in e4 || (DownPaymentInvalid(state) && g == DownPayment)
    requires forall g :: g in e6 <==> (g in e5
                      || (HasValue(state.comparisonPeriod) && !IsPositiveInteger(state.comparisonPeriod) && g == ComparisonPeriod))
    ensures forall f :: f in e6 <==> FormRejected(state, f)
  {
    forall f ensures f in e6 <==> FormRejected(state, f) {
      match f
      case CarPrice =>
      case MonthlyRent =>
      case InterestRate =>
      case FinancingTerm =>
      case DownPayment =>
      case ComparisonPeriod =>
    }
  }

  /** A blank car price, rent or rate, or one that reads as NaN or as a number
      no larger than 0, is flagged; a positive number is not. */
  lemma RequiredAmountFormRule(state: FormState, f: Field)
    requires f == CarPrice || f == MonthlyRent || f == InterestRate
    ensures f in ValidateForm(state) <==> !(Entry(state, f).Parsed? && Entry(state, f).value > 0.0)
  {
  }

  /** The financing term must be the text of a whole number above 0. */
  lemma FinancingTermFormRule(state: FormState)
    ensures FinancingTerm in ValidateForm(state)
        <==> !(state.financingTerm.Parsed? && IsInteger(state.financingTerm.value) && state.financingTerm.value > 0.0)
  {
  }

  /** "0" and "1.5" are both refused as a financing term. */
  lemma ZeroAndFractionalTermsRefused(state: FormState)
    requires state.financingTerm == Parsed(0.0) || state.financingTerm == Parsed(1.5)
    ensures FinancingTerm in ValidateForm(state)
  {
    assert !IsInteger(1.5) by {
      assert (1.5).Floor == 1;
    }
  }

  /** The down payment rule: blank is never an error; text that is not a
      number passes too, because every comparison with NaN is false; a
      number is flagged when negative, or when the car price reads as a
      positive number and the down payment reaches it. */
  lemma DownPaymentFormRule(state: FormState)
    ensures state.downPayment.Empty? ==> DownPayment !in ValidateForm(state)
    ensures state.downPayment.Unparsable? ==> DownPayment !in ValidateForm(state)
    ensures state.downPayment.Parsed? ==>
              (DownPayment in ValidateForm(state)
               <==> state.downPayment.value < 0.0
                    || (state.carPrice.Parsed? && state.carPrice.value > 0.0
                        && state.downPayment.value >= state.carPrice.value))
  {
  }

  /** A blank comparison period is accepted; otherwise it must be the text of
      a whole number above 0. */
  lemma ComparisonPeriodFormRule(state: FormState)
    ensures state.comparisonPeriod.Empty? ==> ComparisonPeriod !in ValidateForm(state)
    ensures !state.comparisonPeriod.Empty? ==>
              (ComparisonPeriod in ValidateForm(state)
               <==> !(state.comparisonPeriod.Parsed? && IsInteger(state.comparisonPeriod.value)
                      && state.comparisonPeriod.value > 0.0))
  {
  }

  /** Each field's error reads only that field's text, except the down
      payment's, which also reads the car price. */
  lemma FieldLocality(s1: FormState, s2: FormState, f: Field)
    requires Entry(s1, f) == Entry(s2, f)
    requires f == DownPayment ==> s1.carPrice == s2.carPrice
    ensures f in ValidateForm(s1) <==> f in ValidateForm(s2)
  {
  }

  /** The submit handler: nothing is submitted while any field is flagged;
      otherwise every text is read with `Number`, a blank down payment
      becomes 0 and a blank comparison period becomes the financing term. */
  function HandleSubmit(state: FormState): (r: Option<SubmittedInput>)
    ensures r.Some? <==> |ValidateForm(state)| == 0
    ensures r.Some? ==>
              && Above(r.value.carPrice, 0.0)
              && Above(r.value.monthlyRent, 0.0)
              && Above(r.value.interestRate, 0.0)
              && r.value.financingTerm.Finite? && IsInteger(r.value.financingTerm.x) && r.value.financingTerm.x > 0.0
              && r.value.comparisonPeriod.Finite? && IsInteger(r.value.comparisonPeriod.x) && r.value.comparisonPeriod.x > 0.0
              && (r.value.downPayment.Finite? ==> 0.0 <= r.value.downPayment.x < r.value.carPrice.x)
    ensures r.Some? ==>
              && r.value.carPrice == ParseNumber(state.carPrice)
              && r.value.monthlyRent == ParseNumber(state.monthlyRent)
              && r.value.interestRate == ParseNumber(state.interestRate)
              && r.value.financingTerm == ParseNumber(state.financingTerm)
    ensures r.Some? && !state.downPayment.Empty? ==> r.value.downPayment == ParseNumber(state.downPayment)
    ensures r.Some? && !state.comparisonPeriod.Empty? ==> r.value.comparisonPeriod == ParseNumber(state.comparisonPeriod)
    ensures r.Some? && state.downPayment.Empty? ==> r.value.downPayment == Finite(0.0)
    ensures r.Some? && state.comparisonPeriod.Empty? ==> r.value.comparisonPeriod == r.value.financingTerm
  {
    var errors := ValidateForm(state);
    if |errors| > 0 then
      None
    else
      NothingFlagged(errors);
      var financingTermValue := ParseNumber(state.financingTerm);
      var comparisonPeriodValue :=
        if HasValue(state.comparisonPeriod) then ParseNumber(state.comparisonPeriod) else financingTermValue;
      var downPaymentValue :=
        if HasValue(state.downPayment) then ParseNumber(state.downPayment) else Finite(0.0);
      Some(SubmittedInput(
        ParseNumber(state.carPrice),
        ParseNumber(state.monthlyRent),
        ParseNumber(state.interestRate),
        financingTermValue,
        downPaymentValue,
        comparisonPeriodValue))
  }

  /** An empty error map has no keys. */
  lemma NothingFlagged(errors: map<Field, string>)
    requires |errors| == 0
    ensures forall f :: f !in errors
  {
    assert errors.Keys == {};
  }

  /** Text that is not a number in the down payment box does not stop the
      form from being submitted, and is submitted as NaN. */
  lemma UnparsableDownPaymentSubmitted(state: FormState)
    requires state.downPayment.Unparsable?
    requires forall f :: f != DownPayment ==> !FormRejected(state, f)
    ensures HandleSubmit(state).Some?
    ensures HandleSubmit(state).value.downPayment == NaN
  {
    var errors := ValidateForm(state);
    assert forall f :: f !in errors;
    assert errors.Keys == {};
  }
}

=== FILE: numeric.dfy ===
/** Real-number stand-ins for the JavaScript numeric primitives the calculator
    relies on: `Math.round` at cent precision, `Math.pow` with a natural
    exponent, and `Number.isInteger`. */
module Numeric {

  /** `b` raised to the natural power `n`. */
  function Pow(b: real, n: nat): real
  {
    if n == 0 then 1.0 else b * Pow(b, n - 1)
  }

  /** `x` is a whole number (`Number.isInteger` on a finite number). */
  predicate IsInteger(x: real)
  {
    x.Floor as real == x
  }

  /** `x` is a whole number of cents. */
  predicate IsCents(x: real)
  {
    IsInteger(100.0 * x)
  }

  /** `Math.round(x * 100) / 100`: round to the cent, halves rounded up
      (towards +infinity), as `Math.round` does. The result is a cent
      amount within half a cent of `x`, the upper half-cent included. */
  function Round2(x: real): (r: real)
    ensures IsCents(r)
    ensures x - 0.005 < r <= x + 0.005
  {
    ((100.0 * x + 0.5).Floor as real) / 100.0
  }

  /** The two facts of `Round2`'s contract pin it down: there is exactly one
      cent amount in the half-open window (x - 0.005, x + 0.005]. */
  lemma Round2Unique(x: real, c: real)
    requires IsCents(c)
    requires x - 0.005 < c <= x + 0.005
    ensures c == Round2(x)
  {
    var k := (100.0 * c).Floor;
    assert 100.0 * x - 0.5 < k as real <= 100.0 * x + 0.5;
    assert k == (100.0 * x + 0.5).Floor;
  }

  /** A cent amount is left alone by rounding. */
  lemma Round2OfCents(c: real)
    requires IsCents(c)
    ensures Round2(c) == c
  {
    Round2Unique(c, c);
  }

  /** Rounding twice is rounding once. */
  lemma Round2Idempotent(x: real)
    ensures Round2(Round2(x)) == Round2(x)
  {
    Round2OfCents(Round2(x));
  }

  /** Rounding never reverses the order of two amounts. */
  lemma Round2Monotone(x: real, y: real)
    requires x <= y
    ensures Round2(x) <= Round2(y)
  {
    var a := 100.0 * x + 0.5;
    var b := 100.0 * y + 0.5;
    assert a <= b;
    assert a.Floor as real <= a;
    assert b < b.Floor as real + 1.0;
  }

  /** The difference of two cent amounts is a cent amount. */
  lemma CentsSub(a: real, b: real)
    requires IsCents(a) && IsCents(b)
    ensures IsCents(a - b)
  {
    var i := (100.0 * a).Floor;
    var j := (100.0 * b).Floor;
    assert 100.0 * (a - b) == (i - j) as real;
  }

  /** A base above one raised to a positive power stays above one. */
  lemma {:induction false} PowAboveOne(b: real, n: nat)
    requires b > 1.0
    requires n >= 1
    ensures Pow(b, n) > 1.0
  {
    if n > 1 {
      PowAboveOne(b, n - 1);
      assert b * Pow(b, n - 1) > 1.0 * Pow(b, n - 1);
    }
  }
}

=== FILE: routes.dfy ===
/** The checks and defaults the `/calculate` handler applies to the request
    body before it calls the engine, taken out of the HTTP handler as pure
    functions: every failing field is reported, in a fixed order, or else the
    body is turned into a fully populated engine input. */
module Routes {
  import opened CalculatorTypes
  import opened Numeric
  import Calculator

  /** One property of the parsed JSON body, as the handler can observe it:
      missing (`undefined`), `null`, a number, `NaN`, or anything else
      (a string, a boolean, an object). */
  datatype JsonValue = Absent | Null | Num(n: real) | NaN | Other

  datatype RequestBody = RequestBody(
    carPrice: JsonValue,
    monthlyRent: JsonValue,
    interestRate: JsonValue,
    financingTerm: JsonValue,
    downPayment: JsonValue,
    comparisonPeriod: JsonValue)

  /** The body property a field is read from. */
  function FieldValue(body: RequestBody, f: Field): JsonValue
  {
    match f
    case CarPrice => body.carPrice
    case MonthlyRent => body.monthlyRent
    case InterestRate => body.interestRate
    case FinancingTerm => body.financingTerm
    case DownPayment => body.downPayment
    case ComparisonPeriod => body.comparisonPeriod
  }

  /** `isNumber`: of type number and not NaN. */
  predicate IsNumber(v: JsonValue)
  {
    v.Num?
  }

  /** `v ?? fallback`: both `undefined` and `null` give way to the fallback. */
  function Coalesce(v: JsonValue, fallback: JsonValue): JsonValue
  {
    if v.Absent? || v.Null? then fallback else v
  }

  /** The error message attached to each field. */
  function Message(f: Field): string
  {
    match f
    case CarPrice => "O valor do carro é obrigatório e deve ser maior que zero"
    case MonthlyRent => "O valor do aluguel é obrigatório e deve ser maior que zero"
    case InterestRate => "A taxa de juros é obrigatória e deve ser maior que zero"
    case FinancingTerm => "O prazo do financiamento é obrigatório e deve ser um inteiro maior que zero"
    case DownPayment => "A entrada deve ser um número não negativo e menor que o valor do carro"
    case ComparisonPeriod => "O período de comparação deve ser um inteiro maior que zero"
  }

  /** The guard of a required amount: not a number, or not above zero. */
  predicate NotPositiveNumber(v: JsonValue)
  {
    !IsNumber(v) || v.n <= 0.0
  }

  /** The guard of a count of periods: not a number, not whole, or not above zero. */
  predicate NotPositiveInteger(v: JsonValue)
  {
    !IsNumber(v) || !IsInteger(v.n) || v.n <= 0.0
  }

  /** The down payment after `?? 0`. */
  function DownPaymentValue(body: RequestBody): JsonValue
  {
    Coalesce(body.downPayment, Num(0.0))
  }

  /** The comparison period after `?? financingTerm`. */
  function ComparisonPeriodValue(body: RequestBody): JsonValue
  {
    Coalesce(body.comparisonPeriod, body.financingTerm)
  }

  /** The down payment check runs whenever the property is present (even as
      `null`, which has already become 0). A value that is not a number or is
      negative fails; otherwise it is compared with the car price whenever
      that is a number, whether or not the price itself was accepted. */
  predicate DownPaymentRejected(body: RequestBody)
  {
    && !body.downPayment.Absent?
    && var dp := DownPaymentValue(body);
       if !IsNumber(dp) || dp.n < 0.0 then true
       else IsNumber(body.carPrice) && dp.n >= body.carPrice.n
  }

  /** The comparison period check runs whenever the property is present; a
      `null` one has already been replaced by the financing term. */
  predicate ComparisonPeriodRejected(body: RequestBody)
  {
    !body.comparisonPeriod.Absent? && NotPositiveInteger(ComparisonPeriodValue(body))
  }

  /** Whether the handler reports an error for field `f`. */
  predicate Rejected(body: RequestBody, f: Field)
  {
    match f
    case CarPrice => NotPositiveNumber(body.carPrice)
    case MonthlyRent => NotPositiveNumber(body.monthlyRent)
    case InterestRate => NotPositiveNumber(body.interestRate)
    case FinancingTerm => NotPositiveInteger(body.financingTerm)
    case DownPayment => DownPaymentRejected(body)
    case ComparisonPeriod => ComparisonPeriodRejected(body)
  }

  /** The fields `errs` holds an error about. */
  function ReportedFields(errs: seq<ValidationError>): set<Field>
  {
    set i | 0 <= i < |errs| :: errs[i].field
  }

  /** `errs` holds an error about `f`. */
  predicate Reports(errs: seq<ValidationError>, f: Field)
  {
    f in ReportedFields(errs)
  }

  /** The fields of `errs` appear in checking order, each at most once. */
  predicate InFieldOrder(errs: seq<ValidationError>)
  {
    forall i, j :: 0 <= i < j < |errs| ==> errs[i].field.Rank() < errs[j].field.Rank()
  }

  /** Every field in `errs` comes before position `k` in the checking order. */
  predicate Below(errs: seq<ValidationError>, k: nat)
  {
    forall i :: 0 <= i < |errs| ==> errs[i].field.Rank() < k
  }

  /** Every error in `errs` carries its field's message. */
  predicate WellWorded(errs: seq<ValidationError>)
  {
    forall i :: 0 <= i < |errs| ==> errs[i].message == Message(errs[i].field)
  }

  /** `errors.push(...)` for field `f` when its check failed. */
  function Push(errs: seq<ValidationError>, failed: bool, f: Field): (r: seq<ValidationError>)
    requires InFieldOrder(errs) && Below(errs, f.Rank()) && WellWorded(errs)
    ensures InFieldOrder(r) && Below(r, f.Rank() + 1) && WellWorded(r)
    ensures forall g :: Reports(r, g) <==> Reports(errs, g) || (failed && g == f)
  {
    if failed then
      var e := ValidationError(f, Message(f));
      AppendKeepsOrder(errs, e);
      AppendReports(errs, e);
      errs + [e]
    else
      errs
  }

  /** Appending an error about a later field keeps the list ordered and
      well worded. */
  lemma AppendKeepsOrder(errs: seq<ValidationError>, e: ValidationError)
    requires InFieldOrder(errs) && Below(errs, e.field.Rank()) && WellWorded(errs)
    requires e.message == Message(e.field)
    ensures InFieldOrder(errs + [e]) && Below(errs + [e], e.field.Rank() + 1) && WellWorded(errs + [e])
  {
    var r := errs + [e];
    assert forall i :: 0 <= i < |errs| ==> r[i] == errs[i];
    assert r[|errs|] == e;
  }

  /** Appending an error adds exactly its field to the reported ones. */
  lemma AppendReports(errs: seq<ValidationError>, e: ValidationError)
    ensures ReportedFields(errs + [e]) == ReportedFields(errs) + {e.field}
  {
    var r := errs + [e];
    assert forall i :: 0 <= i < |errs| ==> r[i] == errs[i];
    assert r[|errs|] == e;
    forall g | g in ReportedFields(r) ensures g in ReportedFields(errs) + {e.field} {
      var i :| 0 <= i < |r| && r[i].field == g;
      if i < |errs| {
        assert errs[i].field == g;
      }
    }
  }

  /** The field checked in position `k`. */
  function FieldAt(k: nat): (f: Field)
    requires k < 6
    ensures f.Rank() == k
    ensures forall g: Field :: g.Rank() == k ==> g == f
  {
    if k == 0 then CarPrice
    else if k == 1 then MonthlyRent
    else if k == 2 then InterestRate
    else if k == 3 then FinancingTerm
    else if k == 4 then DownPayment
    else ComparisonPeriod
  }

  /** The error list after the first `k` checks have run. */
  function ErrorsUpTo(body: RequestBody, k: nat): (errs: seq<ValidationError>)
    requires k <= 6
    ensures InFieldOrder(errs) && Below(errs, k) && WellWorded(errs)
    ensures forall f :: Reports(errs, f) <==> Rejected(body, f) && f.Rank() < k
  {
    if k == 0 then []
    else
      var f := FieldAt(k - 1);
      Push(ErrorsUpTo(body, k - 1), Rejected(body, f), f)
  }

  /** The error list the handler builds: one entry per failing field, in the
      order carPrice, monthlyRent, interestRate, financingTerm, downPayment,
      comparisonPeriod, each with its field's message. */
  function ValidationErrors(body: RequestBody): (errs: seq<ValidationError>)
    ensures InFieldOrder(errs)
    ensures forall f :: Reports(errs, f) <==> Rejected(body, f)
    ensures WellWorded(errs)
  {
    assert forall f: Field :: f.Rank() < 6;
    ErrorsUpTo(body, 6)
  }

  /** How many errors in `errs` are about `f`. */
  function Count(errs: seq<ValidationError>, f: Field): nat
  {
    if |errs| == 0 then 0
    else (if errs[0].field == f then 1 else 0) + Count(errs[1..], f)
  }

  /** In a list in field order a field is counted once when reported and
      not at all otherwise. */
  lemma {:induction false} CountInFieldOrder(errs: seq<ValidationError>, f: Field)
    requires InFieldOrder(errs)
    ensures Count(errs, f) == if Reports(errs, f) then 1 else 0
  {
    if |errs| > 0 {
      var tail := errs[1..];
      assert InFieldOrder(tail) by {
        forall i, j | 0 <= i < j < |tail|
          ensures tail[i].field.Rank() < tail[j].field.Rank()
        {
          assert tail[i] == errs[i + 1] && tail[j] == errs[j + 1];
        }
      }
      CountInFieldOrder(tail, f);
      if errs[0].field == f {
        assert !Reports(tail, f) by {
          forall i | 0 <= i < |tail|
            ensures tail[i].field != f
          {
            assert errs[0].field.Rank() < errs[i + 1].field.Rank();
          }
        }
        assert Reports(errs, f) by {
          assert errs[0].field == f;
        }
      } else {
        assert Reports(errs, f) <==> Reports(tail, f) by {
          if Reports(errs, f) {
            var i :| 0 <= i < |errs| && errs[i].field == f;
            assert i > 0 && tail[i - 1].field == f;
          }
          if Reports(tail, f) {
            var i :| 0 <= i < |tail| && tail[i].field == f;
            assert errs[i + 1].field == f;
          }
        }
      }
    }
  }

  /** Every failing field is reported exactly once, and no other field is. */
  lemma ReportedOnce(body: RequestBody, f: Field)
    ensures Count(ValidationErrors(body), f) == if Rejected(body, f) then 1 else 0
  {
    CountInFieldOrder(ValidationErrors(body), f);
  }

  /** A car price, rent or rate that is missing, `null`, `NaN`, not a number
      or not above zero gives exactly one error for that field. */
  lemma RequiredAmountRule(body: RequestBody, f: Field)
    requires f == CarPrice || f == MonthlyRent || f == InterestRate
    ensures Count(ValidationErrors(body), f)
         == if FieldValue(body, f).Num? && FieldValue(body, f).n > 0.0 then 0 else 1
  {
    ReportedOnce(body, f);
  }

  /** The financing term is reported unless it is a whole number above zero:
      0, 1.5 and -3 are all rejected. */
  lemma FinancingTermRule(body: RequestBody)
    ensures Reports(ValidationErrors(body), FinancingTerm)
        <==> !(body.financingTerm.Num? && IsInteger(body.financingTerm.n) && body.financingTerm.n > 0.0)
  {
  }

  /** The down payment rule, case by case: missing is never an error; `null`
      counts as 0 and so fails only against a car price that is a number no
      larger than 0; anything that is not a number fails; a number fails when
      negative or when it reaches a car price that is a number, even one that
      was itself rejected. */
  lemma DownPaymentRule(body: RequestBody)
    ensures body.downPayment.Absent? ==> !Reports(ValidationErrors(body), DownPayment)
    ensures body.downPayment.Null? ==>
              (Reports(ValidationErrors(body), DownPayment) <==> body.carPrice.Num? && body.carPrice.n <= 0.0)
    ensures body.downPayment.NaN? || body.downPayment.Other? ==> Reports(ValidationErrors(body), DownPayment)
    ensures body.downPayment.Num? ==>
              (Reports(ValidationErrors(body), DownPayment)
               <==> body.downPayment.n < 0.0 || (body.carPrice.Num? && body.downPayment.n >= body.carPrice.n))
  {
  }

  /** The comparison period rule: missing is never an error; `null` stands for
      the financing term and so fails exactly when the term does; otherwise it
      must be a whole number above zero. */
  lemma ComparisonPeriodRule(body: RequestBody)
    ensures body.comparisonPeriod.Absent? ==> !Reports(ValidationErrors(body), ComparisonPeriod)
    ensures body.comparisonPeriod.Null? ==>
              (Reports(ValidationErrors(body), ComparisonPeriod) <==> Reports(ValidationErrors(body), FinancingTerm))
    ensures !body.comparisonPeriod.Absent? && !body.comparisonPeriod.Null? ==>
              (Reports(ValidationErrors(body), ComparisonPeriod)
               <==> !(body.comparisonPeriod.Num? && IsInteger(body.comparisonPeriod.n) && body.comparisonPeriod.n > 0.0))
  {
  }

  /** A body with no failing field, turned into the engine's input with both
      defaults written in. */
  function Normalize(body: RequestBody): (input: CalculationInput)
    requires forall f :: !Rejected(body, f)
    ensures Calculator.ValidInput(input)
    ensures Calculator.AmortizationDefined(input.interestRate, input.financingTerm)
    ensures body.carPrice.Num? && input.carPrice == body.carPrice.n
    ensures body.monthlyRent.Num? && input.monthlyRent == body.monthlyRent.n
    ensures body.interestRate.Num? && input.interestRate == body.interestRate.n
    ensures body.financingTerm.Num? && input.financingTerm as real == body.financingTerm.n
    ensures input.downPayment == Some(if body.downPayment.Num? then body.downPayment.n else 0.0)
    ensures input.comparisonPeriod.Some?
    ensures input.comparisonPeriod.value as real
         == if body.comparisonPeriod.Num? then body.comparisonPeriod.n else body.financingTerm.n
  {
    assert !Rejected(body, CarPrice) && !Rejected(body, MonthlyRent) && !Rejected(body, InterestRate);
    assert !Rejected(body, FinancingTerm) && !Rejected(body, DownPayment) && !Rejected(body, ComparisonPeriod);
    var term := body.financingTerm.n.Floor;
    var period := ComparisonPeriodValue(body).n.Floor;
    var input := CalculationInput(
      body.carPrice.n,
      body.monthlyRent.n,
      body.interestRate.n,
      term as nat,
      Some(DownPaymentValue(body).n),
      Some(period as nat));
    Calculator.ValidInputIsPriceable(input);
    input
  }

  /** The handler's decision: the error list when any field fails, and
      otherwise the normalized input that satisfies every constraint. */
  function Validate(body: RequestBody): (r: Result<CalculationInput, seq<ValidationError>>)
    ensures r.Success? <==> forall f :: !Rejected(body, f)
    ensures r.Failure? ==> |r.error| > 0 && r.error == ValidationErrors(body)
    ensures r.Success? ==> Calculator.ValidInput(r.value) && r.value == Normalize(body)
  {
    var errs := ValidationErrors(body);
    if |errs| > 0 then
      assert Reports(errs, errs[0].field);
      Failure(errs)
    else
      NothingReported(body);
      Success(Normalize(body))
  }

  /** An empty error list means no field failed. */
  lemma NothingReported(body: RequestBody)
    requires |ValidationErrors(body)| == 0
    ensures forall f :: !Rejected(body, f)
  {
    forall f ensures !Rejected(body, f) {
      assert !Reports(ValidationErrors(body), f);
    }
  }

  /** The `/calculate` handler without its HTTP plumbing: the engine runs
      only when no field failed. */
  function Handle(body: RequestBody): (r: Result<CalculationResult, seq<ValidationError>>)
    ensures r.Success? <==> forall f :: !Rejected(body, f)
    ensures r.Failure? ==> |r.error| > 0 && r.error == ValidationErrors(body)
    ensures r.Success? ==> r.value == Calculator.Calculate(Normalize(body))
    ensures r.Success? ==> r.value.savings.vsFinancing >= 0.0 && r.value.savings.vsRental >= 0.0
  {
    match Validate(body)
    case Failure(errs) => Failure(errs)
    case Success(input) =>
      Calculator.ValidInputIsPriceable(input);
      Success(Calculator.Calculate(input))
  }

  /** A negative car price is refused with a car price error and nothing is
      computed. */
  lemma NegativePriceRefused(body: RequestBody)
    requires body.carPrice.Num? && body.carPrice.n < 0.0
    ensures Handle(body).Failure?
    ensures Reports(Handle(body).error, CarPrice)
  {
    assert Rejected(body, CarPrice);
  }

  /** A down payment equal to the car price is refused. */
  lemma FullDownPaymentRefused(body: RequestBody, price: real)
    requires body.carPrice == Num(price)
    requires body.downPayment == Num(price)
    ensures Reports(ValidationErrors(body), DownPayment)
  {
    DownPaymentRule(body);
  }

  /** When the only problems are a price that is not positive and a
      non-negative down payment (which then reaches that price), exactly two
      errors come back: the price first, then the down payment compared with
      the rejected price. */
  lemma DownPaymentComparedWithRejectedPrice(body: RequestBody)
    requires body.carPrice.Num? && body.carPrice.n <= 0.0
    requires body.downPayment.Num? && body.downPayment.n >= 0.0
    requires !Rejected(body, MonthlyRent) && !Rejected(body, InterestRate)
    requires !Rejected(body, FinancingTerm) && !Rejected(body, ComparisonPeriod)
    ensures ValidationErrors(body)
         == [ValidationError(CarPrice, Message(CarPrice)), ValidationError(DownPayment, Message(DownPayment))]
  {
    assert Rejected(body, CarPrice) && Rejected(body, DownPayment);
    ErrorsStep(body, 1);
    ErrorsStep(body, 2);
    ErrorsStep(body, 3);
    ErrorsStep(body, 4);
    ErrorsStep(body, 5);
    ErrorsStep(body, 6);
  }

  /** One more check appends at most one error, about the field checked. */
  lemma ErrorsStep(body: RequestBody, k: nat)
    requires 0 < k <= 6
    ensures var f := FieldAt(k - 1);
            ErrorsUpTo(body, k)
            == if Rejected(body, f) then ErrorsUpTo(body, k - 1) + [ValidationError(f, Message(f))]
               else ErrorsUpTo(body, k - 1)
  {
  }
}

=== FILE: types.dfy ===
/** The data shapes shared by the comparison engine and both validators. */
module CalculatorTypes {

  datatype Option<T> = None | Some(value: T)

  datatype Result<T, E> = Success(value: T) | Failure(error: E)

  /** The request to the engine. `downPayment` and `comparisonPeriod` are
      optional; the engine fills them in with 0 and `financingTerm`. Both
      validators only pass whole numbers of periods, so the two counts are
      naturals here. */
  datatype CalculationInput = CalculationInput(
    carPrice: real,
    monthlyRent: real,
    interestRate: real,
    financingTerm: nat,
    downPayment: Option<real>,
    comparisonPeriod: Option<nat>)

  datatype CashResult = CashResult(total: real)

  datatype FinancingResult = FinancingResult(monthlyPayment: real, total: real)

  datatype RentalResult = RentalResult(total: real)

  /** The three ways of acquiring the car, in tie-break order. */
  datatype Recommendation = Cash | Financing | Rental

  datatype Savings = Savings(vsFinancing: real, vsRental: real)

  datatype CalculationResult = CalculationResult(
    cash: CashResult,
    financing: FinancingResult,
    rental: RentalResult,
    recommendation: Recommendation,
    savings: Savings)

  /** The six input fields, in the order both validators check them. */
  datatype Field = CarPrice | MonthlyRent | InterestRate | FinancingTerm | DownPayment | ComparisonPeriod
  {
    /** Position of the field in the checking order. */
    function Rank(): nat
    {
      match this
      case CarPrice => 0
      case MonthlyRent => 1
      case InterestRate => 2
      case FinancingTerm => 3
      case DownPayment => 4
      case ComparisonPeriod => 5
    }

  }

  datatype ValidationError = ValidationError(field: Field, message: string)
}

=== FILE: wire.dfy ===
/** How the submitted form reaches the server: the record is sent as
    `JSON.stringify(input)`, which writes every finite number as itself and
    NaN as `null`. This module connects the two validators through that
    encoding. */
module Wire {
  import opened CalculatorTypes
  import Form
  import Routes

  /** `JSON.stringify` of one number, as the server reads it back. */
  function ToJson(n: Form.JsNumber): Routes.JsonValue
  {
    match n
    case Finite(x) => Routes.Num(x)
    case NaN => Routes.Null
  }

  /** The request body the server receives for a submitted form. */
  function Encode(sub: Form.SubmittedInput): (body: Routes.RequestBody)
    ensures forall f :: Form.Submitted(sub, f).Finite? ==> Routes.FieldValue(body, f) == Routes.Num(Form.Submitted(sub, f).x)
    ensures forall f :: Form.Submitted(sub, f).NaN? ==> Routes.FieldValue(body, f) == Routes.Null
    ensures forall f :: !Routes.FieldValue(body, f).Absent? && !Routes.FieldValue(body, f).Other?
  {
    Routes.RequestBody(
      ToJson(sub.carPrice),
      ToJson(sub.monthlyRent),
      ToJson(sub.interestRate),
      ToJson(sub.financingTerm),
      ToJson(sub.downPayment),
      ToJson(sub.comparisonPeriod))
  }

  /** Every record of finite numbers (and NaN) the form lets through, the
      server accepts; a down payment the form submitted as NaN arrives as
      `null` and is priced as 0, and the other entries reach the engine
      unchanged. Text that reads as Infinity is outside `Form.FieldText`. */
  lemma SubmittedFormAccepted(state: Form.FormState)
    requires Form.HandleSubmit(state).Some?
    ensures var sub := Form.HandleSubmit(state).value;
            var r := Routes.Validate(Encode(sub));
            && r.Success?
            && r.value.carPrice == sub.carPrice.x
            && r.value.monthlyRent == sub.monthlyRent.x
            && r.value.interestRate == sub.interestRate.x
            && r.value.financingTerm as real == sub.financingTerm.x
            && r.value.downPayment == Some(if sub.downPayment.NaN? then 0.0 else sub.downPayment.x)
            && r.value.comparisonPeriod.Some?
            && r.value.comparisonPeriod.value as real == sub.comparisonPeriod.x
  {
    var sub := Form.HandleSubmit(state).value;
    var body := Encode(sub);
    forall f ensures !Routes.Rejected(body, f) {
      match f
      case CarPrice =>
      case MonthlyRent =>
      case InterestRate =>
      case FinancingTerm =>
      case DownPayment =>
      case ComparisonPeriod =>
    }
  }
}
